=== FILE: README.md ===
# MDK video source for OBS — a Dafny model

This project models the core of the `mdkvideo` source of the obs-mdk plugin.
An OBS input source wraps one mdk `Player` (the media engine). The model covers
the decisions that source makes:

- **Settings apply** (`mdkvideo_update`, `mdkvideo_defaults`, `mdkvideo_create`).
  The stored speed percentage is read as a 64-bit integer and cast to a C `int`.
  A value outside [1, 400] is replaced by 100. The loop flag becomes the engine's
  loop count: -1 repeats forever and 0 plays once. The decoder list is the
  chosen decoder followed by FFmpeg. Playback restarts only when the engine has
  no url, or has a different url from the configured file.
- **Restart-and-play** (`play`). Clear the queued next media, stop, wait for
  Stopped, clear the current media, set the new url, then request Playing.
- **Status edge detection** (the `onMediaStatusChanged` callback). The cached
  video width and height are read from the engine only on the rising edge of
  the Loaded bit.
- **Surface cache** (`ensureRTV`, `render`). Zero size or a failed texrender
  begin means nothing is drawn. A texture already cached is reused without
  registering it again. A new texture is cached, and its size is registered
  with the engine after its Direct3D 11 view is bound. The source caches a new
  texture before its view exists. `VideoSource.EnsureRTVAsWritten` and
  `VideoSource.RenderAsWritten` keep that behaviour. `VideoSource.EnsureRTV`
  and `VideoSource.Render` are the corrected versions, and the invariant
  lemmas about the binding are proved of them (see "## Findings").

The engine is an immutable `Engine.Player` record. Every call the source makes
on it is an `Engine.EngineCall` value, applied by `Engine.Step`. A list of calls
is applied in order by `Engine.Run`. The source object is a
`VideoSource.Source` record: the engine, the cached texture (`tex_`), the flip
mode (`flip_`), the cached size (`w_`, `h_`) and the last status mask
(`status_`). The host's `width()` and `height()` callbacks read the `w` and `h`
fields directly. Each host entry point and each engine callback is a pure
function from one `Source` to the next.

Some inputs come from outside the model:

- The GPU outcome of each tick is a `VideoSource.GpuTick` parameter. It says
  whether the texrender pass could begin, which texture it yields, which
  backend is in use, and whether a Direct3D 11 view could be created.
- The media information reported by the engine is a `MediaInfo` parameter.
- The uninitialised `status_` of a new source is an `initialStatus` parameter.

The model assumes two things about the engine, whose headers are not part of
this model:

- `setMedia(u)` does nothing when `u` is already the current url. A change to a
  non-null url starts a new load, counted in `opens`. The comment on the
  `setMedia(nullptr)` line of `play` relies on this behaviour.
- `flags_added(old, new, flag)` means the flag is off in `old` and on in `new`.

Files:

- `wrappers.dfy`: `Option` and `Result`.
- `engine.dfy`: the abstract engine.
- `settings.dfy`: settings reads, integer casts and normalisation.
- `source.dfy`: the video source.

## Model

| member | source | states |
|---|---|---|
| Settings.Read | mdkvideo.cpp:169-173 | A stored value wins. With nothing stored, `looping` reads false and `speed_percent` reads 100. The two string keys read as empty. |
| Settings.ToInt32 | mdkvideo.cpp:132 | The `(int)` cast keeps values in the `int` range and otherwise agrees with the stored value modulo 2^32. |
| Settings.NormalizeSpeed | mdkvideo.cpp:132-134 | The result always lies in [1, 400]. A stored value in [1, 400] is kept. A cast value outside [1, 400] becomes exactly 100. |
| Settings.NormalizeSpeedIdempotent | mdkvideo.cpp:132-134 | Normalising twice gives the same result as normalising once. |
| Settings.NormalizeSpeedSeesOnlyLowBits | mdkvideo.cpp:132-134 | The range test runs after the cast. So 2^32 + 150 is accepted as 150, while 500 becomes 100. |
| Settings.LoopCount | mdkvideo.cpp:135 | The loop count is -1 exactly when looping is on, and 0 exactly when it is off. |
| Settings.DecoderList | mdkvideo.cpp:137-138 | The decoder list has exactly two entries: the chosen decoder, then "FFmpeg". |
| Settings.DefaultsPlayOnceAtNormalSpeed | mdkvideo.cpp:169-173 | With nothing stored, the engine gets loop count 0 and speed 100. |
| VideoSource.NewSource | mdkvideo.cpp:104-117 | A new source has no texture, vertical flip, size 0 x 0, the given engine and the given (uninitialised) status. So on Direct3D 11 the view-to-texture binding holds from construction. |
| VideoSource.ToUint32 | mdkvideo.cpp:32-33 | Assigning a codec `int` to the `uint32_t` fields keeps non-negative values and wraps modulo 2^32. |
| VideoSource.StopPhase | mdkvideo.cpp:58-61 | After the first four calls of `play`, the engine is Stopped with no current and no next media. The engine is already Stopped when the wait is issued. |
| VideoSource.StartPhase | mdkvideo.cpp:62-63 | From an engine with no media, the last two calls open the url, count one new load and request Playing. |
| VideoSource.Play | mdkvideo.cpp:57-64 | Afterwards the engine's url is the given url, next media is null, state is Playing and one new load was started, even for the url already playing. No other engine field changes. |
| VideoSource.PlayStopsAndClearsBeforeNewUrl | mdkvideo.cpp:57-64 | The wait for Stopped follows the Stopped request. The new url is set only when the engine is Stopped with current and next media cleared. Playing is requested last. |
| VideoSource.ResetNeededToReloadSameUrl | mdkvideo.cpp:61-62 | Without the `setMedia(nullptr)` call, restarting on the url already held starts no load. With it, one load starts. |
| VideoSource.Update | mdkvideo.cpp:127-142 | After update, the loop count follows the flag. The speed is the normalised percentage in [1, 400]. The decoders are `[chosen, "FFmpeg"]`. The url is the configured file. A new load happens iff the old url was absent or different. With an equal url, next media and state are unchanged. The source's own fields are untouched. |
| VideoSource.UpdateIdempotent | mdkvideo.cpp:139-141 | Applying the same settings twice equals applying them once, so the second apply does not restart playback. |
| VideoSource.Create | mdkvideo.cpp:144-149 | Creating a source on a fresh engine always starts the configured file playing, with size 0 x 0 and no texture, and the view-to-texture binding holds. |
| VideoSource.OnMediaStatusChangedAsWritten | mdkvideo.cpp:29-37 | The callback as written fails exactly when Loaded rises and the media has no video stream. Otherwise it agrees with the corrected callback. |
| VideoSource.OnMediaStatusChanged | mdkvideo.cpp:29-37 | The size is overwritten from video stream 0 only on a rising Loaded edge. Otherwise it is kept. The new mask is always recorded, the callback always returns true, and the engine, texture and flip are untouched. |
| VideoSource.AudioOnlyLoadFaults | mdkvideo.cpp:30-33 | A load finishing with no video stream makes the callback as written fail. The corrected callback keeps the size. |
| VideoSource.SizeReadOncePerLoad | mdkvideo.cpp:29-37 | While Loaded stays set, any run of status changes leaves the size, engine and texture unchanged and records the last mask. |
| VideoSource.EnsureRTVAsWritten | mdkvideo.cpp:72-102 | Zero size or a failed begin changes nothing and fails. The same texture as cached answers "non-null?" without registering again. A new null texture is cached as null and fails. When view creation fails for a new texture, the texture is still cached and the flip is cleared. Nothing else changes: the size, the status and the whole engine, including its view and surface size, stay as they were. |
| VideoSource.EnsureRTV | mdkvideo.cpp:72-102 | Zero size or a failed begin changes nothing and fails. The same texture as cached answers "non-null?" without registering again. A new null texture is cached and fails. A new texture is cached, its view bound on Direct3D 11 and size (w, h) registered. A failed view creation clears the flip and changes nothing else, so the cache and engine stay as they were. Success implies a non-null cached texture equal to the one yielded. |
| VideoSource.EnsureRTVAgreesWhenViewsSucceed | mdkvideo.cpp:80-101 | The corrected and as-written surface checks are identical whenever no Direct3D 11 view creation fails. |
| VideoSource.EnsureRTVKeepsViewBound | mdkvideo.cpp:83-99 | For the corrected check, on Direct3D 11 the engine's view belongs to the cached texture before and after the check. A successful check has the view bound to the yielded texture. |
| VideoSource.ViewMatchesCacheSurvivesUpdate | mdkvideo.cpp:127-142 | Applying settings leaves the view-to-texture binding intact. |
| VideoSource.ViewMatchesCacheSurvivesStatus | mdkvideo.cpp:29-37 | Reporting a status change leaves the view-to-texture binding intact. |
| VideoSource.FailedViewIsNeverRetried | mdkvideo.cpp:81-92 | After one failed view creation, the as-written check succeeds on the next tick with no view bound for the texture. The corrected check retries and binds it. |
| VideoSource.EnsureRTVIdempotent | mdkvideo.cpp:80-82 | For the corrected check, repeating a tick with the same GPU outcome changes nothing further and gives the same answer. The check as written keeps this only while no view creation fails; see the Findings. |
| VideoSource.EnsureRTVAsWrittenIdempotentWhenViewsSucceed | mdkvideo.cpp:80-101 | As written, repeating a tick with the same GPU outcome changes nothing further and gives the same answer, provided no Direct3D 11 view creation fails. |
| VideoSource.EnsureRTVAsWrittenNotIdempotentOnFailedView | mdkvideo.cpp:81-92 | As written, a Direct3D 11 tick whose view creation fails for a new texture returns false, and the identical tick repeated returns true. |
| VideoSource.RenderAsWritten | mdkvideo.cpp:49-55 | Render as written, built on the as-written surface check. A texture is returned iff that check succeeds, it is the cached texture, and exactly one frame was rendered. Otherwise nothing was rendered. Zero size or a failed begin leave the source unchanged. |
| VideoSource.RenderAsWrittenBreaksBindingOnFailedView | mdkvideo.cpp:81-92 | As written, one Direct3D 11 tick whose view creation fails for a new texture draws nothing and leaves that texture cached with no view bound for it, when the engine's view is not already that texture. |
| VideoSource.RenderAsWrittenDrawsUnboundTexture | mdkvideo.cpp:49-55 | In the two-tick run of the finding, render as written returns texture 7 and renders a frame while the engine has no view and no surface size. The corrected render binds view 7 and registers 1920 x 1080. |
| VideoSource.Render | mdkvideo.cpp:49-55 | The corrected render, built on the corrected surface check. A texture is returned iff that check succeeds. It is the texture the texrender yielded and is now cached, and exactly one frame was rendered. Otherwise nothing was rendered. Zero size or a failed begin leave the source unchanged. |
| VideoSource.RenderDrawsBoundView | mdkvideo.cpp:49-55 | For the corrected render on Direct3D 11, a texture returned for drawing is the one whose view the engine rendered into, and the binding holds afterwards. Render as written does not keep this binding; see the Findings. |
| VideoSource.ViewStaysBoundAcrossTicks | mdkvideo.cpp:49-55 | For the corrected render, over any run of Direct3D 11 render ticks, the view stays bound to the cached texture. The frame count grows by at most one per tick. Render as written does not keep this binding; see the Findings. |

## Left out

- Direct3D 11 view creation, `ComPtr` handling and the `MS_CHECK`/`MS_ENSURE` macros (mdkvideo.cpp:2-20, 86-99). They are platform GPU calls. Each tick supplies the backend kind and an opaque "view created" flag, and the engine records which texture its view belongs to.
- The OBS texrender itself (`gs_texrender_reset`, `gs_texrender_begin`, `gs_texrender_get_texture`, `gs_texrender_end`). Their outcomes are inputs for each tick. How texrender recreates its texture on a resize is not modelled, so no lemma relates the registered surface size to later size changes.
- Update: the engine's playback rate is recorded as the integer speed percentage. The float division `speed_percent / 100.0f` (mdkvideo.cpp:136) is floating point and is not modelled.
- `Player::waitFor` blocking and the engine's threaded callbacks. `play` is an atomic sequence of engine calls, and the wait changes nothing because the state it waits for was already requested.
- The logging handler and `blog` calls (mdkvideo.cpp:26-28, 41, 77). They are host logging.
- The destructor's graphics enter/leave and texrender destruction (mdkvideo.cpp:40-46), and `mdkvideo_destroy`. They are host resource teardown.
- Sprite drawing, effect lookup and flip use in `mdkvideo_render` (mdkvideo.cpp:206-222). They are host rendering calls. The flip mode is kept as the `flip` field.
- The property sheet (mdkvideo.cpp:175-199), `mdkvideo_getname`, the empty tick (mdkvideo.cpp:201-204) and source registration (mdkvideo.cpp:224-241). They are host glue.
- plugin.c is not part of this model. It only registers the source at module load.
- A null url from the settings store. The store returns an empty string for a missing key, so the url is always a string.
- Create: requires an engine with no current url, as a freshly constructed `Player` has. The other initial engine fields are left as parameters.

## Findings

| source | as written | input that shows it | evidently intended | confidence | as-written member | corrected member |
|---|---|---|---|---|---|---|
| mdkvideo.cpp:30-33 | On the rising Loaded edge the callback reads `info.video[0]` without checking that the media has a video stream. | A media file with no video stream (audio only) finishes loading: the status goes from `{}` to `{Loaded}` with `info.video` empty, and index 0 is out of bounds. | Read the size only when a video stream exists, and keep the cached size otherwise. | medium; not executed | VideoSource.OnMediaStatusChangedAsWritten (shown by VideoSource.AudioOnlyLoadFaults) | VideoSource.OnMediaStatusChanged |
| mdkvideo.cpp:81-92 | `tex_` is assigned before the Direct3D 11 view is created. When `CreateRenderTargetView` fails, the function returns false. On the next tick the texrender yields the same texture, so the `tex == tex_` branch returns true without creating a view or registering the surface size. | Size 1920 x 1080 on Direct3D 11. Tick 1 yields texture 7 and view creation fails. Tick 2 yields texture 7 again. Render returns texture 7 and renders a frame, although the engine was never given a view or a surface size for it. | Cache the texture only once its view exists, so a failed creation is retried on the next tick. | medium; not executed | VideoSource.EnsureRTVAsWritten and VideoSource.RenderAsWritten (shown by VideoSource.FailedViewIsNeverRetried, VideoSource.EnsureRTVAsWrittenNotIdempotentOnFailedView, VideoSource.RenderAsWrittenBreaksBindingOnFailedView and VideoSource.RenderAsWrittenDrawsUnboundTexture) | VideoSource.EnsureRTV and VideoSource.Render (with VideoSource.EnsureRTVIdempotent, VideoSource.EnsureRTVAsWrittenIdempotentWhenViewsSucceed, VideoSource.RenderDrawsBoundView and VideoSource.ViewStaysBoundAcrossTicks) |

=== FILE: engine.dfy ===
/**
 The media engine (an mdk `Player`) as abstract state.

 The engine is a black box to the video source: the source only issues calls
 (`setMedia`, `setNextMedia`, `setState`, `waitFor`, `setLoop`, ...) and reads
 back the current url. Each call is an `EngineCall` value and `Step` applies
 one of them to an immutable `Player` record, so a sequence of calls can be
 replayed (`Run`) and split into phases (`RunAppend`).
 */
module Engine {
  import opened Wrappers

  type Url = string

  /** Opaque identity of a GPU texture; a null texture pointer is `None`. */
  type TexId = nat

  /** An unsigned 32-bit integer (C `uint32_t`). */
  type uint32 = x: int | 0 <= x < 0x1_0000_0000

  /** The discrete playback state set through `setState`. */
  datatype PlaybackState = Stopped | Playing | Paused

  /** The bits of the engine's media status mask. */
  datatype StatusFlag =
    | Unloaded | Loading | Loaded | Prepared | Stalled
    | Buffering | Buffered | End | Seeking | Invalid

  /** A status mask is the set of bits that are on. */
  type StatusMask = set<StatusFlag>

  /** `flag` is off in `oldMask` and on in `newMask`: a rising edge. */
  predicate FlagsAdded(oldMask: StatusMask, newMask: StatusMask, flag: StatusFlag)
  {
    flag !in oldMask && flag in newMask
  }

  /** Codec parameters of one video stream; the engine reports them as C ints. */
  datatype VideoCodec = VideoCodec(width: int, height: int)

  /** The part of the engine's media information the source reads. */
  datatype MediaInfo = MediaInfo(video: seq<VideoCodec>)

  /**
   The engine state the video source can influence or observe.
   `opens` counts the times a new media url was handed to the engine (a new
   load), and `framesRendered` counts `renderVideo` calls.
   */
  datatype Player = Player(
    url: Option<Url>,
    next: Option<Url>,
    state: PlaybackState,
    loopCount: int,
    speedPercent: int,
    videoDecoders: seq<string>,
    surfaceSize: Option<(uint32, uint32)>,
    view: Option<TexId>,
    opens: nat,
    framesRendered: nat)

  /** One call the video source makes on the engine. */
  datatype EngineCall =
    | SetNextMedia(nextUrl: Option<Url>)
    | SetState(target: PlaybackState)
    | WaitFor(awaited: PlaybackState)
    | SetMedia(mediaUrl: Option<Url>)
    | SetLoop(count: int)
    | SetPlaybackRate(percent: int)
    | SetVideoDecoders(names: seq<string>)
    | SetVideoSurfaceSize(width: uint32, height: uint32)
    | SetRenderApi(viewTexture: TexId)
    | RenderVideo

  /**
   The effect of one call. `setMedia` with the url already current does not
   reload; a change to a non-null url starts a new load. `waitFor` blocks
   until the engine is in the awaited state; in this atomic model the state a
   preceding `setState` asked for has already been reached, so it changes
   nothing (see `VideoSource.PlayStopsAndClearsBeforeNewUrl`).
   */
  function Step(p: Player, c: EngineCall): (r: Player)
    ensures c.SetMedia? && c.mediaUrl != p.url && c.mediaUrl.Some? ==> r.opens == p.opens + 1
    ensures !c.SetMedia? || c.mediaUrl == p.url || c.mediaUrl.None? ==> r.opens == p.opens
    ensures !c.SetMedia? && !c.SetNextMedia? && !c.SetState? ==> r.url == p.url && r.next == p.next && r.state == p.state
  {
    match c
    case SetNextMedia(u) => p.(next := u)
    case SetState(s) => p.(state := s)
    case WaitFor(_) => p
    case SetMedia(u) =>
      if u == p.url then p
      else p.(url := u, opens := if u.Some? then p.opens + 1 else p.opens)
    case SetLoop(n) => p.(loopCount := n)
    case SetPlaybackRate(percent) => p.(speedPercent := percent)
    case SetVideoDecoders(names) => p.(videoDecoders := names)
    case SetVideoSurfaceSize(w, h) => p.(surfaceSize := Some((w, h)))
    case SetRenderApi(t) => p.(view := Some(t))
    case RenderVideo => p.(framesRendered := p.framesRendered + 1)
  }

  /** The engine after all `calls`, issued in order. */
  function Run(p: Player, calls: seq<EngineCall>): (r: Player)
    decreases |calls|
  {
    if |calls| == 0 then p else Run(Step(p, calls[0]), calls[1..])
  }

  /** Issuing `a` and then `b` is issuing their concatenation. */
  lemma {:induction false} RunAppend(p: Player, a: seq<EngineCall>, b: seq<EngineCall>)
    ensures Run(p, a + b) == Run(Run(p, a), b)
    decreases |a|
  {
    if |a| == 0 {
      assert a + b == b;
    } else {
      assert (a + b)[0] == a[0];
      assert (a + b)[1..] == a[1..] + b;
      RunAppend(Step(p, a[0]), a[1..], b);
    }
  }
}

=== FILE: settings.dfy ===
/**
 The source's settings record and the rules that turn it into engine
 parameters: the speed percentage is read as a 64-bit integer, cast to a C
 `int`, and replaced by 100 when outside [1, 400]; the loop flag becomes the
 engine's loop count; the chosen hardware decoder is tried before FFmpeg.
 */
module Settings {
  import opened Wrappers

  /** The integer the settings store holds. */
  type int64 = x: int | -0x8000_0000_0000_0000 <= x < 0x8000_0000_0000_0000

  /** The C `int` the speed percentage is cast to. */
  type int32 = x: int | -0x8000_0000 <= x < 0x8000_0000

  /** The largest accepted speed percentage. */
  const MaxSpeedPercent: int := 400

  /** The speed percentage used when the setting is out of range. */
  const FallbackSpeedPercent: int := 100

  /** The decoder always tried after the chosen one. */
  const SoftwareDecoder: string := "FFmpeg"

  /**
   The values a user has stored for the four keys the source reads; `None`
   means the key was never set, so the registered default (or the store's
   zero value when there is none) is read instead.
   */
  datatype StoredSettings = StoredSettings(
    localFile: Option<string>,
    looping: Option<bool>,
    speedPercent: Option<int64>,
    gpuDecoder: Option<string>)

  /** The values the source reads after defaults have been applied. */
  datatype EffectiveSettings = EffectiveSettings(
    localFile: string,
    looping: bool,
    speedPercent: int64,
    gpuDecoder: string)

  /** Nothing stored: every read falls back to a default. */
  const NothingStored := StoredSettings(None, None, None, None)

  /**
   What the source reads for each key: a stored value wins; otherwise the
   defaults registered by the source (`looping` false, `speed_percent` 100);
   otherwise the store's zero value (the empty string for the two string keys).
   */
  function Read(s: StoredSettings): (e: EffectiveSettings)
    ensures s.looping.Some? ==> e.looping == s.looping.value
    ensures s.looping.None? ==> !e.looping
    ensures s.speedPercent.Some? ==> e.speedPercent == s.speedPercent.value
    ensures s.speedPercent.None? ==> e.speedPercent == FallbackSpeedPercent
    ensures s.localFile.Some? ==> e.localFile == s.localFile.value
    ensures s.localFile.None? ==> e.localFile == ""
    ensures s.gpuDecoder.Some? ==> e.gpuDecoder == s.gpuDecoder.value
    ensures s.gpuDecoder.None? ==> e.gpuDecoder == ""
  {
    EffectiveSettings(
      match s.localFile case Some(f) => f case None => "",
      match s.looping case Some(b) => b case None => false,
      match s.speedPercent case Some(n) => n case None => FallbackSpeedPercent,
      match s.gpuDecoder case Some(d) => d case None => "")
  }

  /** Two's-complement narrowing of a 64-bit integer to a C `int`. */
  function ToInt32(x: int64): (r: int32)
    ensures -0x8000_0000 <= x < 0x8000_0000 ==> r == x
    ensures (r - x) % 0x1_0000_0000 == 0
  {
    (x + 0x8000_0000) % 0x1_0000_0000 - 0x8000_0000
  }

  predicate InSpeedRange(n: int)
  {
    1 <= n <= MaxSpeedPercent
  }

  /**
   The speed percentage the source uses for a stored value: the value cast
   to `int` when that lies in [1, 400], and 100 otherwise.
   */
  function NormalizeSpeed(raw: int64): (r: int32)
    ensures InSpeedRange(r)
    ensures InSpeedRange(raw) ==> r == raw
    ensures !InSpeedRange(ToInt32(raw)) ==> r == FallbackSpeedPercent
    ensures InSpeedRange(ToInt32(raw)) ==> r == ToInt32(raw)
  {
    var n := ToInt32(raw);
    if n < 1 || n > MaxSpeedPercent then FallbackSpeedPercent else n
  }

  /** Normalising an already normalised percentage changes nothing. */
  lemma NormalizeSpeedIdempotent(raw: int64)
    ensures NormalizeSpeed(NormalizeSpeed(raw)) == NormalizeSpeed(raw)
  {
  }

  /**
   The cast happens before the range test, so a stored value outside the
   `int` range whose low 32 bits lie in [1, 400] is accepted as that value
   rather than replaced by 100.
   */
  lemma NormalizeSpeedSeesOnlyLowBits()
    ensures NormalizeSpeed(0x1_0000_0000 + 150) == 150
    ensures NormalizeSpeed(500) == FallbackSpeedPercent
  {
  }

  /** The engine loop count for the loop flag: -1 loops forever, 0 plays once. */
  function LoopCount(looping: bool): (n: int)
    ensures looping <==> n == -1
    ensures !looping <==> n == 0
  {
    if looping then -1 else 0
  }

  /** The decoder preference list: the chosen decoder, then FFmpeg as fallback. */
  function DecoderList(chosen: string): (names: seq<string>)
    ensures |names| == 2 && names[0] == chosen && names[1] == SoftwareDecoder
  {
    [chosen, SoftwareDecoder]
  }

  /** With nothing stored the source plays once, at normal speed. */
  lemma DefaultsPlayOnceAtNormalSpeed()
    ensures !Read(NothingStored).looping
    ensures LoopCount(Read(NothingStored).looping) == 0
    ensures NormalizeSpeed(Read(NothingStored).speedPercent) == 100
  {
  }
}

=== FILE: source.dfy ===
/**
 The MDK video source: one host source object wrapping one engine.

 `Source` holds what the object keeps between host calls: the engine, the
 cached render texture, the flip mode, the video size last read from the
 engine, and the last media status mask. Every host entry point and engine
 callback is a pure transition on that record. The GPU's per-tick behaviour
 (whether the texrender pass could begin, which texture it yields, whether a
 Direct3D 11 render-target view could be created) is an input, `GpuTick`.
 */
module VideoSource {
  import opened Wrappers
  import opened Engine
  import opened Settings

  /** How the host must flip the texture when drawing it. */
  datatype Flip = FlipVertical | NoFlip

  /** The host's graphics backend. */
  datatype Device = Direct3D11 | OtherDevice

  /**
   What the host GPU does during one `ensureRTV`: whether beginning the
   texrender pass succeeds, the texture it renders into, the backend, and
   (on Direct3D 11) whether a render-target view for that texture is created.
   */
  datatype GpuTick = GpuTick(beginOk: bool, texture: Option<TexId>, device: Device, viewOk: bool)

  datatype Source = Source(
    player: Player,
    tex: Option<TexId>,
    flip: Flip,
    w: uint32,
    h: uint32,
    status: StatusMask)

  /** A just-constructed source: no texture, vertical flip, size 0 x 0. */
  function NewSource(player: Player, initialStatus: StatusMask): (s: Source)
    ensures s.tex.None? && s.flip == FlipVertical && s.w == 0 && s.h == 0
    ensures s.player == player && s.status == initialStatus
    ensures ViewMatchesCache(s, Direct3D11)
  {
    Source(player, None, FlipVertical, 0, 0, initialStatus)
  }

  /** The conversion of a C `int` codec dimension to the source's `uint32_t`. */
  function ToUint32(x: int): (r: uint32)
    ensures 0 <= x < 0x1_0000_0000 ==> r == x
    ensures (r - x) % 0x1_0000_0000 == 0
  {
    x % 0x1_0000_0000
  }

  // ---------------------------------------------------------------------
  // Restart-and-play

  /**
   The first phase of `play(url)`: drop the queued next media, stop, wait
   until stopped, and clear the current media (the new url may equal it).
   */
  function StopCalls(): (calls: seq<EngineCall>)
  {
    [SetNextMedia(None), SetState(Stopped), WaitFor(Stopped), SetMedia(None)]
  }

  /** The second phase of `play(url)`: hand over the url and start playing. */
  function StartCalls(url: Url): (calls: seq<EngineCall>)
  {
    [SetMedia(Some(url)), SetState(Playing)]
  }

  /** The engine calls `play(url)` issues, in order. */
  function PlayCalls(url: Url): (calls: seq<EngineCall>)
  {
    StopCalls() + StartCalls(url)
  }

  /** After the first phase the engine is stopped, with no media and nothing queued. */
  lemma StopPhase(p: Player)
    ensures Run(p, StopCalls()) == p.(next := None, state := Stopped, url := None)
    ensures Run(p, StopCalls()[..2]).state == Stopped
  {
    var calls := StopCalls();
    var q1 := Step(p, calls[0]);
    var q2 := Step(q1, calls[1]);
    var q3 := Step(q2, calls[2]);
    assert Run(p, calls) == Run(q1, calls[1..]);
    assert Run(q1, calls[1..]) == Run(q2, calls[2..]);
    assert Run(q2, calls[2..]) == Run(q3, calls[3..]);
    assert Run(q3, calls[3..]) == Run(Step(q3, calls[3]), calls[4..]);
    assert Run(p, calls[..2]) == Run(q1, calls[..2][1..]);
    assert Run(q1, calls[..2][1..]) == Run(q2, calls[..2][2..]);
  }

  /** From an engine with no media, the second phase opens `url` and plays it. */
  lemma StartPhase(q: Player, url: Url)
    requires q.url.None?
    ensures Run(q, StartCalls(url)) == q.(url := Some(url), opens := q.opens + 1, state := Playing)
  {
    var calls := StartCalls(url);
    var q1 := Step(q, calls[0]);
    assert Run(q, calls) == Run(q1, calls[1..]);
    assert Run(q1, calls[1..]) == Run(Step(q1, calls[1]), calls[2..]);
  }

  /**
   Restart the engine on `url`: afterwards it plays `url`, with nothing
   queued next, and a new load has been started even when `url` was already
   the current media. Nothing else about the engine changes.
   */
  function Play(p: Player, url: Url): (r: Player)
    ensures r.url == Some(url) && r.next.None? && r.state == Playing
    ensures r.opens == p.opens + 1
    ensures r.(url := p.url, next := p.next, state := p.state, opens := p.opens) == p
  {
    RunAppend(p, StopCalls(), StartCalls(url));
    StopPhase(p);
    StartPhase(Run(p, StopCalls()), url);
    Run(p, PlayCalls(url))
  }

  /**
   Ordering inside `play`: the wait for Stopped is issued after Stopped was
   requested, and the new url is handed over only once the engine is
   stopped with its current and next media cleared; Playing is requested
   last.
   */
  lemma PlayStopsAndClearsBeforeNewUrl(p: Player, url: Url)
    ensures var calls := PlayCalls(url);
            var before := Run(p, calls[..4]);
            && calls[2] == WaitFor(Stopped) && Run(p, calls[..2]).state == Stopped
            && calls[4] == SetMedia(Some(url))
            && before.state == Stopped && before.url.None? && before.next.None?
            && calls[|calls| - 1] == SetState(Playing)
            && Run(before, calls[4..]) == Play(p, url)
  {
    var calls := PlayCalls(url);
    assert calls[..4] == StopCalls();
    assert calls[..2] == StopCalls()[..2];
    assert calls[4..] == StartCalls(url);
    StopPhase(p);
    RunAppend(p, StopCalls(), StartCalls(url));
  }

  /** `play` without the intermediate `setMedia(nullptr)`. */
  function PlayCallsWithoutReset(url: Url): (calls: seq<EngineCall>)
  {
    StopCalls()[..3] + StartCalls(url)
  }

  /**
   Why `play` clears the media first: without it, restarting on the url the
   engine already holds would start no new load.
   */
  lemma ResetNeededToReloadSameUrl(p: Player, url: Url)
    requires p.url == Some(url)
    ensures Run(p, PlayCallsWithoutReset(url)).opens == p.opens
    ensures Play(p, url).opens == p.opens + 1
  {
    var stop := StopCalls()[..3];
    var q1 := Step(p, stop[0]);
    var q2 := Step(q1, stop[1]);
    assert Run(p, stop) == Run(q1, stop[1..]);
    assert Run(q1, stop[1..]) == Run(q2, stop[2..]);
    assert Run(q2, stop[2..]) == Run(Step(q2, stop[2]), stop[3..]);
    var q := Run(p, stop);
    assert q.url == Some(url) && q.opens == p.opens;
    var calls := StartCalls(url);
    assert Run(q, calls) == Run(Step(q, calls[0]), calls[1..]);
    assert Run(Step(q, calls[0]), calls[1..]) == Run(Step(Step(q, calls[0]), calls[1]), calls[2..]);
    RunAppend(p, stop, calls);
  }

  // ---------------------------------------------------------------------
  // Settings apply

  /**
   Apply the stored settings: set the loop count, the speed and the decoder
   list, and restart playback only when the engine has no url or a different
   one. With an equal url the engine's media, next media and state are left
   as they were. The video size, texture, flip and status are untouched.
   */
  function Update(src: Source, stored: StoredSettings): (r: Source)
    ensures var s := Read(stored);
            && r.player.loopCount == LoopCount(s.looping)
            && InSpeedRange(r.player.speedPercent)
            && r.player.speedPercent == NormalizeSpeed(s.speedPercent)
            && r.player.videoDecoders == [s.gpuDecoder, "FFmpeg"]
            && r.player.url == Some(s.localFile)
            && (src.player.url != Some(s.localFile) <==> r.player.opens == src.player.opens + 1)
            && (src.player.url == Some(s.localFile) ==> r.player.opens == src.player.opens)
            && (src.player.url == Some(s.localFile) ==>
                  r.player.next == src.player.next && r.player.state == src.player.state)
            && (src.player.url != Some(s.localFile) ==>
                  r.player.next.None? && r.player.state == Playing)
    ensures r.player.surfaceSize == src.player.surfaceSize && r.player.view == src.player.view
    ensures r.player.framesRendered == src.player.framesRendered
    ensures r.(player := src.player) == src
  {
    var s := Read(stored);
    var p1 := Step(src.player, SetLoop(LoopCount(s.looping)));
    var p2 := Step(p1, SetPlaybackRate(NormalizeSpeed(s.speedPercent)));
    var p3 := Step(p2, SetVideoDecoders(DecoderList(s.gpuDecoder)));
    if p3.url.None? || p3.url.value != s.localFile then src.(player := Play(p3, s.localFile))
    else src.(player := p3)
  }

  /** Applying the same settings twice is the same as applying them once. */
  lemma UpdateIdempotent(src: Source, stored: StoredSettings)
    ensures Update(Update(src, stored), stored) == Update(src, stored)
  {
  }

  /**
   Creating a source applies its settings to a fresh engine, which has no
   media yet, so the configured file always starts playing.
   */
  function Create(stored: StoredSettings, player: Player, initialStatus: StatusMask): (r: Source)
    requires player.url.None?
    ensures r.player.url == Some(Read(stored).localFile)
    ensures r.player.state == Playing && r.player.next.None?
    ensures r.player.opens == player.opens + 1
    ensures r.tex.None? && r.w == 0 && r.h == 0 && r.flip == FlipVertical && r.status == initialStatus
    ensures ViewMatchesCache(r, Direct3D11)
  {
    Update(NewSource(player, initialStatus), stored)
  }

  // ---------------------------------------------------------------------
  // Status edge detection

  /** Why the callback as written cannot complete. */
  datatype Fault = NoVideoStream

  /**
   The media-status callback as written: on the rising edge of Loaded it
   reads the size of video stream 0 without checking that the media has a
   video stream; with none the read is out of bounds (`Failure`).
   */
  function OnMediaStatusChangedAsWritten(src: Source, s: StatusMask, info: MediaInfo): (r: Result<(Source, bool), Fault>)
    ensures r.Failure? <==> FlagsAdded(src.status, s, Loaded) && |info.video| == 0
    ensures r.Success? ==> r.value == OnMediaStatusChanged(src, s, info)
  {
    if FlagsAdded(src.status, s, Loaded) then
      if |info.video| == 0 then Failure(NoVideoStream)
      else
        var v := info.video[0];
        Success((src.(w := ToUint32(v.width), h := ToUint32(v.height), status := s), true))
    else Success((src.(status := s), true))
  }

  /**
   The media-status callback with the missing check added: the cached size is
   refreshed from video stream 0 only on the rising edge of Loaded (and only
   when there is a video stream); otherwise it keeps its value. The new mask
   is always recorded and the callback always accepts the change.
   */
  function OnMediaStatusChanged(src: Source, s: StatusMask, info: MediaInfo): (r: (Source, bool))
    ensures r.1
    ensures r.0.status == s
    ensures FlagsAdded(src.status, s, Loaded) && |info.video| > 0 ==>
              r.0.w == ToUint32(info.video[0].width) && r.0.h == ToUint32(info.video[0].height)
    ensures !FlagsAdded(src.status, s, Loaded) || |info.video| == 0 ==> r.0.w == src.w && r.0.h == src.h
    ensures r.0.player == src.player && r.0.tex == src.tex && r.0.flip == src.flip
  {
    if FlagsAdded(src.status, s, Loaded) && |info.video| > 0 then
      var v := info.video[0];
      (src.(w := ToUint32(v.width), h := ToUint32(v.height), status := s), true)
    else (src.(status := s), true)
  }

  /** An audio-only media finishing its load makes the callback as written fail. */
  lemma AudioOnlyLoadFaults(src: Source)
    requires Loaded !in src.status
    ensures OnMediaStatusChangedAsWritten(src, {Loaded}, MediaInfo([])).Failure?
    ensures OnMediaStatusChanged(src, {Loaded}, MediaInfo([])).0.w == src.w
  {
  }

  /** One status change reported by the engine, with the media info at that time. */
  datatype StatusEvent = StatusEvent(mask: StatusMask, info: MediaInfo)

  /** The source after the engine reports `events` in order. */
  function NotifyAll(src: Source, events: seq<StatusEvent>): (r: Source)
    decreases |events|
  {
    if |events| == 0 then src
    else NotifyAll(OnMediaStatusChanged(src, events[0].mask, events[0].info).0, events[1..])
  }

  /**
   The size is read once per load: while Loaded stays set, however many
   status changes arrive and whatever media info they carry, the cached size
   does not move, and the last reported mask is the one recorded.
   */
  lemma {:induction false} SizeReadOncePerLoad(src: Source, events: seq<StatusEvent>)
    requires Loaded in src.status
    requires forall i :: 0 <= i < |events| ==> Loaded in events[i].mask
    ensures NotifyAll(src, events).w == src.w && NotifyAll(src, events).h == src.h
    ensures |events| > 0 ==> NotifyAll(src, events).status == events[|events| - 1].mask
    ensures NotifyAll(src, events).player == src.player && NotifyAll(src, events).tex == src.tex
    decreases |events|
  {
    if |events| > 0 {
      var next := OnMediaStatusChanged(src, events[0].mask, events[0].info).0;
      assert Loaded in events[0].mask;
      SizeReadOncePerLoad(next, events[1..]);
      if |events| > 1 {
        assert events[1..][|events[1..]| - 1] == events[|events| - 1];
      }
    }
  }

  // ---------------------------------------------------------------------
  // Surface cache

  /**
   `ensureRTV` as written. The texture is cached before the Direct3D 11 view
   is created, so when that creation fails the next tick with the same
   texture takes the cached branch and reports success with no view bound.
   */
  function EnsureRTVAsWritten(src: Source, g: GpuTick): (r: (Source, bool))
    ensures src.w == 0 || src.h == 0 || !g.beginOk ==> r == (src, false)
    ensures src.w > 0 && src.h > 0 && g.beginOk && g.texture == src.tex ==>
              r == (src, src.tex.Some?)
    ensures src.w > 0 && src.h > 0 && g.beginOk && g.texture != src.tex && g.texture.None? ==>
              r == (src.(tex := None), false)
    ensures (&& g.device == Direct3D11 && !g.viewOk && g.texture.Some? && src.w > 0 && src.h > 0
             && g.beginOk && g.texture != src.tex) ==>
              r == (src.(tex := g.texture, flip := NoFlip), false)
  {
    if src.w == 0 || src.h == 0 then (src, false)
    else if !g.beginOk then (src, false)
    else if g.texture == src.tex then (src, src.tex.Some?)
    else
      var s1 := src.(tex := g.texture);
      if g.texture.None? then (s1, false)
      else if g.device == Direct3D11 then
        var s2 := s1.(flip := NoFlip);
        if !g.viewOk then (s2, false)
        else
          var p := Step(s2.player, SetRenderApi(g.texture.value));
          (s2.(player := Step(p, SetVideoSurfaceSize(src.w, src.h))), true)
      else (s1.(player := Step(s1.player, SetVideoSurfaceSize(src.w, src.h))), true)
  }

  /**
   `ensureRTV` with the texture committed to the cache only once its view
   exists. Zero size or a failed pass begin change nothing and fail. The same
   texture as cached answers whether it is non-null, without registering the
   surface again. A new null texture is cached and fails. A new texture is
   cached and its size registered with the engine (after binding its view on
   Direct3D 11); a failed view creation leaves the cache and engine as they
   were, so the next tick tries again.
   */
  function EnsureRTV(src: Source, g: GpuTick): (r: (Source, bool))
    ensures src.w == 0 || src.h == 0 || !g.beginOk ==> r == (src, false)
    ensures src.w > 0 && src.h > 0 && g.beginOk && g.texture == src.tex ==>
              r == (src, src.tex.Some?)
    ensures src.w > 0 && src.h > 0 && g.beginOk && g.texture != src.tex && g.texture.None? ==>
              r == (src.(tex := None), false)
    ensures src.w > 0 && src.h > 0 && g.beginOk && g.texture != src.tex && g.texture.Some?
              && (g.device == OtherDevice || g.viewOk) ==>
              && r.1 && r.0.tex == g.texture
              && r.0.player.surfaceSize == Some((src.w, src.h))
              && (g.device == Direct3D11 ==> r.0.player.view == g.texture && r.0.flip == NoFlip)
              && (g.device == OtherDevice ==> r.0.player.view == src.player.view && r.0.flip == src.flip)
    ensures src.w > 0 && src.h > 0 && g.beginOk && g.texture != src.tex && g.texture.Some?
              && g.device == Direct3D11 && !g.viewOk ==>
              r == (src.(flip := NoFlip), false)
    ensures r.1 ==> r.0.tex.Some? && r.0.tex == g.texture
    ensures r.0.w == src.w && r.0.h == src.h && r.0.status == src.status
    ensures r.0.player.url == src.player.url && r.0.player.next == src.player.next
    ensures r.0.player.state == src.player.state && r.0.player.framesRendered == src.player.framesRendered
  {
    if src.w == 0 || src.h == 0 then (src, false)
    else if !g.beginOk then (src, false)
    else if g.texture == src.tex then (src, src.tex.Some?)
    else if g.texture.None? then (src.(tex := None), false)
    else if g.device == Direct3D11 then
      var s1 := src.(flip := NoFlip);
      if !g.viewOk then (s1, false)
      else
        var p := Step(s1.player, SetRenderApi(g.texture.value));
        (s1.(tex := g.texture, player := Step(p, SetVideoSurfaceSize(src.w, src.h))), true)
    else (src.(tex := g.texture, player := Step(src.player, SetVideoSurfaceSize(src.w, src.h))), true)
  }

  /** The two versions differ only when a Direct3D 11 view cannot be created. */
  lemma EnsureRTVAgreesWhenViewsSucceed(src: Source, g: GpuTick)
    requires g.device == OtherDevice || g.viewOk
    ensures EnsureRTVAsWritten(src, g) == EnsureRTV(src, g)
  {
  }

  /**
   On Direct3D 11 the engine's view belongs to the cached texture whenever
   one is cached.
   */
  predicate ViewMatchesCache(src: Source, device: Device)
  {
    device == Direct3D11 && src.tex.Some? ==> src.player.view == src.tex
  }

  /**
   Applying settings touches neither the cached texture nor the engine's
   view, so the binding survives it.
   */
  lemma ViewMatchesCacheSurvivesUpdate(src: Source, stored: StoredSettings)
    requires ViewMatchesCache(src, Direct3D11)
    ensures ViewMatchesCache(Update(src, stored), Direct3D11)
  {
  }

  /**
   A status change touches neither the cached texture nor the engine's view,
   so the binding survives it.
   */
  lemma ViewMatchesCacheSurvivesStatus(src: Source, s: StatusMask, info: MediaInfo)
    requires ViewMatchesCache(src, Direct3D11)
    ensures ViewMatchesCache(OnMediaStatusChanged(src, s, info).0, Direct3D11)
  {
  }

  /** `EnsureRTV` keeps the view bound to the cached texture, and succeeds only then. */
  lemma EnsureRTVKeepsViewBound(src: Source, g: GpuTick)
    requires ViewMatchesCache(src, g.device)
    ensures ViewMatchesCache(EnsureRTV(src, g).0, g.device)
    ensures EnsureRTV(src, g).1 && g.device == Direct3D11 ==> EnsureRTV(src, g).0.player.view == g.texture
  {
  }

  /**
   A failed view creation followed by a tick that yields the same texture:
   as written the second tick succeeds with no view bound for that texture;
   the corrected version retries and binds it.
   */
  lemma FailedViewIsNeverRetried()
    ensures var p := Player(None, None, Stopped, 0, 100, [], None, None, 0, 0);
            var src := Source(p, None, FlipVertical, 1920, 1080, {Loaded});
            var fail := GpuTick(true, Some(7), Direct3D11, false);
            var ok := GpuTick(true, Some(7), Direct3D11, true);
            var asWritten := EnsureRTVAsWritten(EnsureRTVAsWritten(src, fail).0, ok);
            var corrected := EnsureRTV(EnsureRTV(src, fail).0, ok);
            && ViewMatchesCache(src, Direct3D11)
            && asWritten.1 && !ViewMatchesCache(asWritten.0, Direct3D11)
            && corrected.1 && corrected.0.player.view == Some(7)
  {
  }

  /** Repeating a tick with the same GPU outcome changes nothing more. */
  lemma EnsureRTVIdempotent(src: Source, g: GpuTick)
    ensures EnsureRTV(EnsureRTV(src, g).0, g) == EnsureRTV(src, g)
  {
  }

  /**
   As written, repeating a tick is harmless as long as no Direct3D 11 view
   creation fails: the second call changes nothing and gives the same answer.
   */
  lemma EnsureRTVAsWrittenIdempotentWhenViewsSucceed(src: Source, g: GpuTick)
    requires g.device == OtherDevice || g.viewOk
    ensures EnsureRTVAsWritten(EnsureRTVAsWritten(src, g).0, g) == EnsureRTVAsWritten(src, g)
  {
    EnsureRTVAgreesWhenViewsSucceed(src, g);
    EnsureRTVAgreesWhenViewsSucceed(EnsureRTV(src, g).0, g);
    EnsureRTVIdempotent(src, g);
  }

  /**
   As written, repeating a Direct3D 11 tick whose view creation fails for a
   new texture changes the answer: the first call fails, the identical second
   call takes the cached branch and succeeds.
   */
  lemma EnsureRTVAsWrittenNotIdempotentOnFailedView(src: Source, g: GpuTick)
    requires src.w > 0 && src.h > 0
    requires g.beginOk && g.texture.Some? && g.texture != src.tex && g.device == Direct3D11 && !g.viewOk
    ensures !EnsureRTVAsWritten(src, g).1
    ensures EnsureRTVAsWritten(EnsureRTVAsWritten(src, g).0, g).1
  {
  }

  /**
   `render` as written, on top of `ensureRTV` as written: when the surface
   check succeeds the engine renders a frame and the cached texture is
   returned, whether or not a view was ever bound for it.
   */
  function RenderAsWritten(src: Source, g: GpuTick): (r: (Source, Option<TexId>))
    ensures r.1.Some? <==> EnsureRTVAsWritten(src, g).1
    ensures r.1.Some? ==> r.1 == r.0.tex && r.0.player.framesRendered == src.player.framesRendered + 1
    ensures r.1.None? ==> r.0.player.framesRendered == src.player.framesRendered
    ensures src.w == 0 || src.h == 0 || !g.beginOk ==> r == (src, None)
    ensures r.0.w == src.w && r.0.h == src.h && r.0.status == src.status
  {
    var (s1, ok) := EnsureRTVAsWritten(src, g);
    if !ok then (s1, None)
    else (s1.(player := Step(s1.player, RenderVideo)), s1.tex)
  }

  /**
   As written, a single Direct3D 11 tick whose view creation fails for a new
   texture already breaks the binding between the cached texture and the
   engine's view.
   */
  lemma RenderAsWrittenBreaksBindingOnFailedView(src: Source, g: GpuTick)
    requires src.w > 0 && src.h > 0
    requires g.beginOk && g.texture.Some? && g.texture != src.tex && g.device == Direct3D11 && !g.viewOk
    requires src.player.view != g.texture
    ensures RenderAsWritten(src, g).1.None?
    ensures !ViewMatchesCache(RenderAsWritten(src, g).0, Direct3D11)
  {
  }

  /**
   A failed view creation for texture 7 at 1920 x 1080 on Direct3D 11, then
   the same texture again, through the whole render path: as written the
   second tick draws texture 7 although the engine never got a view or a
   surface size for it; the corrected render binds the view and registers
   the size first.
   */
  lemma RenderAsWrittenDrawsUnboundTexture()
    ensures var p := Player(None, None, Stopped, 0, 100, [], None, None, 0, 0);
            var src := Source(p, None, FlipVertical, 1920, 1080, {Loaded});
            var fail := GpuTick(true, Some(7), Direct3D11, false);
            var ok := GpuTick(true, Some(7), Direct3D11, true);
            var asWritten := RenderAsWritten(RenderAsWritten(src, fail).0, ok);
            var corrected := Render(Render(src, fail).0, ok);
            && asWritten.1 == Some(7) && asWritten.0.player.framesRendered == 1
            && asWritten.0.player.view.None? && asWritten.0.player.surfaceSize.None?
            && corrected.1 == Some(7)
            && corrected.0.player.view == Some(7) && corrected.0.player.surfaceSize == Some((1920, 1080))
  {
  }

  /**
   One host render tick, on top of the corrected `EnsureRTV`: when the
   surface is ready the engine renders a frame into it and the cached texture
   is returned for drawing; otherwise nothing is rendered and there is
   nothing to draw. `RenderAsWritten` is the tick on top of `ensureRTV` as
   written.
   */
  function Render(src: Source, g: GpuTick): (r: (Source, Option<TexId>))
    ensures r.1.Some? <==> EnsureRTV(src, g).1
    ensures r.1.Some? ==> r.1 == g.texture && r.1 == r.0.tex
    ensures r.1.Some? ==> r.0.player.framesRendered == src.player.framesRendered + 1
    ensures r.1.None? ==> r.0.player.framesRendered == src.player.framesRendered
    ensures src.w == 0 || src.h == 0 || !g.beginOk ==> r == (src, None)
    ensures r.0.w == src.w && r.0.h == src.h && r.0.status == src.status
  {
    var (s1, ok) := EnsureRTV(src, g);
    if !ok then (s1, None)
    else (s1.(player := Step(s1.player, RenderVideo)), s1.tex)
  }

  /**
   On Direct3D 11, a texture returned for drawing is the one whose view the
   engine rendered into, and the binding survives the tick.
   */
  lemma RenderDrawsBoundView(src: Source, g: GpuTick)
    requires g.device == Direct3D11 && ViewMatchesCache(src, Direct3D11)
    ensures Render(src, g).1.Some? ==> Render(src, g).0.player.view == Render(src, g).1
    ensures ViewMatchesCache(Render(src, g).0, Direct3D11)
  {
    EnsureRTVKeepsViewBound(src, g);
  }

  /** The source after the host renders one frame per tick of `ticks`. */
  function RenderAll(src: Source, ticks: seq<GpuTick>): (r: Source)
    decreases |ticks|
  {
    if |ticks| == 0 then src else RenderAll(Render(src, ticks[0]).0, ticks[1..])
  }

  /**
   However the GPU behaves from frame to frame (failed pass begins, null or
   new textures, failed view creation), on Direct3D 11 the engine's view stays
   bound to the cached texture, and the frame counter grows by at most one
   per tick.
   */
  lemma {:induction false} ViewStaysBoundAcrossTicks(src: Source, ticks: seq<GpuTick>)
    requires ViewMatchesCache(src, Direct3D11)
    requires forall i :: 0 <= i < |ticks| ==> ticks[i].device == Direct3D11
    ensures ViewMatchesCache(RenderAll(src, ticks), Direct3D11)
    ensures src.player.framesRendered <= RenderAll(src, ticks).player.framesRendered <= src.player.framesRendered + |ticks|
    decreases |ticks|
  {
    if |ticks| > 0 {
      RenderDrawsBoundView(src, ticks[0]);
      ViewStaysBoundAcrossTicks(Render(src, ticks[0]).0, ticks[1..]);
    }
  }
}

=== FILE: wrappers.dfy ===
/** Small failure-carrying datatypes shared by the model. */
module Wrappers {

  /** A value that may be absent; stands for a nullable pointer or string. */
  datatype Option<+T> = None | Some(value: T)

  /** The outcome of an operation that can fail with an error of type E. */
  datatype Result<+R, +E> = Success(value: R) | Failure(error: E)
}
